=== FILE: README.md ===
# Call-session controller of the mock-interview app

This project models the `Agent` component (`components/Agent.tsx`). That component
runs a voice interview with an AI assistant. It consists of:

- the call status `INACTIVE | CONNECTING | ACTIVE | FINISHED`;
- the saved transcript of `{role, content}` turns;
- the speaking flag and the text of the newest turn;
- the provider's event handlers (call-start, call-end, message, speech-start, speech-end, error);
- the call and end buttons, with the start and stop commands they issue;
- the post-call effect. After the call it either goes home (`generate` sessions) or asks the
  remote feedback generator for feedback on the transcript. It then routes on that result.

Modules, one per file:

- `Options` (options.dfy): optional values, for TypeScript's optional props.
- `Questions` (questions.dfy): the question block sent to the interviewer. Each question gets a
  `"- "` bullet, and the lines are joined with `"\n"`. The partner is a parser that splits the
  block back into questions. Lemmas give the round trip, and also show where the format loses
  information.
- `Transcript` (transcript.dfy): the saved messages, the `message` handler, the `lastMessage`
  update, and a reference definition of "the final transcripts of a message stream".
- `Feedback` (feedback.dfy): the feedback request and result, and the outcome route. The partner is
  a route parser that recovers the interview id from `/interview/{id}/feedback`.
- `Agent` (agent.dfy): the state, the handlers, the buttons, the start/stop commands, the
  post-call decision and the effect's re-run rule. `Apply` handles one input to completion.
- `AgentTrace` (trace.dfy): whole sessions (`Run`), checked against reference definitions for the
  history, the status, the speaking flag and `lastMessage`.
- `PostCallLatch` (latch.dfy): a one-shot latch on the post-call workflow. This is an ADDED design
  choice and not part of the component. The component re-runs its effect whenever the history
  grows after the call finished. So ending an interview and then receiving one more final
  transcript asks for feedback twice (`UnlatchedRequestsTwice`). The latched session passes on at
  most one post-call action and otherwise agrees with the component. The latch covers the lifetime
  of one mounted controller and is not re-armed by a new call.

Modelling conventions:

- The provider (vapi), the feedback generator (`createFeedback`) and the router are abstracted.
  Events are an input datatype. Start and stop are emitted `Command` values. The feedback result
  is an input. Navigation is a route string.
- The workflow id (an environment variable) and the `interviewer` assistant are opaque `Target`
  values.
- JavaScript semantics are written out where the source relies on them. `success && id` treats an
  empty id as missing. A template literal prints an `undefined` interview id as `"undefined"`.
  `join` of no elements gives `""`.
- The effect re-runs after a handler only when `messages` or `callStatus` changed. Appending always
  makes a new array. Setting the status to its current value leaves that dependency unchanged, so the
  effect does not re-run. The effect's other dependencies are the props and the router
  (`useRouter()`). The model assumes both stay fixed for one mounted controller.

The component is looser than a one-shot, buffered design would be, and the model keeps it that way:

- There is no pending-utterance buffer. Partial transcripts are dropped.
- `handleCall` does not clear the history of a previous call.
- A failed `vapi.start` leaves the status `CONNECTING`.
- Call-start and call-end set the status from any state.
- The post-call workflow has no one-shot guard, so it is not exactly-once. A late call-end after
  the user ended the call is quiet only because the status is unchanged (`LateCallEndIsQuiet`).

## Model

| member | source | states |
|---|---|---|
| Questions.Join | components/Agent.tsx:131-133 | joining no parts gives the empty string; one part gives that part unchanged |
| Questions.FormatQuestions | components/Agent.tsx:129-134 | absent questions and an empty list both give ""; a single question gives "- " followed by that question |
| Questions.FormatAppend | components/Agent.tsx:129-134 | adding a question to a non-empty list appends exactly "\n- " and the question; the earlier block is unchanged, so the order is the given order |
| Questions.FormatLines | components/Agent.tsx:129-134 | for questions without line breaks, the block has exactly one line per question, in order, each "- " plus the question |
| Questions.FormatParseRoundTrip | components/Agent.tsx:129-134 | parsing the block gives back exactly the questions, the empty list included, when no question contains a line break |
| Questions.FormatTwoQuestions | components/Agent.tsx:129-134 | ["Tell me about yourself", "Why this role?"] gives "- Tell me about yourself\n- Why this role?" |
| Questions.FormatIsLossy | components/Agent.tsx:129-134 | absent and empty question lists give the same block; a question holding "\n- " gives the same block as two questions |
| Transcript.OnMessage | components/Agent.tsx:48-53 | a final transcript adds exactly one {role, content} entry at the end and keeps all earlier entries in order; any other message leaves the history unchanged |
| Transcript.RefreshLastMessage | components/Agent.tsx:87-89 | with a non-empty history the result is the newest entry's content; with an empty history the previous value stays |
| Feedback.InterviewOfRoute | components/Agent.tsx:102 | a route it accepts is exactly "/interview/" + id + "/feedback" for the id it returns |
| Feedback.FeedbackRouteRoundTrip | components/Agent.tsx:102 | the feedback route of any interview id parses back to that id |
| Feedback.OutcomeRoute | components/Agent.tsx:101-106 | success with a truthy id routes to the feedback page of the interview; any other result routes to "/"; it reaches a feedback page exactly when success and id both hold |
| Feedback.FailedOutcomesGoHome | components/Agent.tsx:101-106 | success false, a missing id, and an empty id each route to "/" |
| Feedback.SuccessfulOutcomeShowsFeedback | components/Agent.tsx:101-102 | success with id "fb1" for interview "iv1" routes to "/interview/iv1/feedback" |
| Agent.OnEvent | components/Agent.tsx:39-67 | call-start sets ACTIVE and call-end sets FINISHED from any status; all other events keep the status; only final transcripts extend the history, by exactly one entry at the end; speech events set only the speaking flag; errors change nothing |
| Agent.StartCommand | components/Agent.tsx:121-140 | a generate session targets the workflow with exactly username and userid; any other session targets the interviewer with exactly the formatted question block |
| Agent.StartCommandCarriesQuestions | components/Agent.tsx:129-140 | when no question contains a line break, an interviewer start command carries every prepared question, recoverable in order from its block; absent questions read back as none |
| Agent.HandleCall | components/Agent.tsx:118-142 | offered when the call is not active; sets CONNECTING, changes nothing else, and issues the start command |
| Agent.HandleDisconnect | components/Agent.tsx:144-147 | offered only while active; sets FINISHED, changes nothing else, and issues stop |
| Agent.PostCall | components/Agent.tsx:109-115 | nothing unless FINISHED; then generate goes home, and any other type requests feedback with the current history (even empty) and the interview, user and feedback ids |
| Agent.Settle | components/Agent.tsx:86-116 | the effect changes only lastMessage and keeps it current; when a dependency changed it sets lastMessage to the newest entry's text if there is one, otherwise leaves the state as it is, and takes the post-call decision for the new status and history (acting exactly when the call has finished); when none changed it does nothing; a feedback request carries the whole history with the interview, user and feedback ids, and never comes from a generate session |
| Agent.Apply | components/Agent.tsx:208-226 | a press on a button that is not shown changes nothing; every input keeps lastMessage current, and leaves it unchanged while the history is empty; post-call actions only in FINISHED |
| Agent.CallEndRunsPostCall | components/Agent.tsx:44-46 | a provider call-end during a call runs the post-call workflow: home for generate, otherwise a feedback request on the whole history |
| Agent.DisconnectRequestsFeedback | components/Agent.tsx:109-115 | ending an active interview issues stop and requests feedback on the history as it stands, even when empty |
| Agent.LateCallEndIsQuiet | components/Agent.tsx:44-46 | a call-end after the call already finished changes nothing and starts no second post-call workflow |
| Agent.LateTranscriptRequestsAgain | components/Agent.tsx:86-116 | a final transcript after the call finished re-runs the effect and requests feedback again, with the longer history |
| AgentTrace.Run | components/Agent.tsx:48-53 | a session never shortens or rewrites the history, and keeps lastMessage current |
| AgentTrace.RunMessages | components/Agent.tsx:48-53 | after any session the history is the earlier history followed by exactly the final transcripts, in arrival order |
| AgentTrace.RunLastMessage | components/Agent.tsx:87-89 | once a final transcript arrived, lastMessage is the text of the newest one |
| AgentTrace.RunLastMessageKept | components/Agent.tsx:87-89 | from a consistent start, a session without a final transcript leaves lastMessage unchanged |
| AgentTrace.RunSpeaking | components/Agent.tsx:55-63 | the speaking flag is the one set by the last speech event; it is unchanged when there was none |
| AgentTrace.RunStatus | components/Agent.tsx:40-46 | without button presses, the status is the one set by the last call-start or call-end, whatever it was before |
| AgentTrace.GenerateNeverRequestsFeedback | components/Agent.tsx:109-111 | a generate session never requests feedback, whatever the transcript |
| AgentTrace.SessionRoutes | components/Agent.tsx:101-115 | at every point of any session, given the feedback result: a generate session only ever goes home; any other session, once it acts, reaches the interview's feedback page exactly when the result is a success with a truthy id, and goes home otherwise |
| AgentTrace.PartialsThenFinal | components/Agent.tsx:48-53 | from the initial state, partials "I th" and "I think", then final "I think so", leave exactly [{user, "I think so"}] |
| PostCallLatch.LatchedRun | components/Agent.tsx:109-115 | added design: one post-call action slot per input, as in the unlatched session |
| PostCallLatch.LatchedRunAgrees | components/Agent.tsx:109-115 | added design: the latch changes no state or command; the one action it passes on is the first post-call action of the session as written, at the same point; it fires exactly when that session acts |
| PostCallLatch.LatchedAtMostOnce | components/Agent.tsx:109-115 | added design: a latched session performs the post-call workflow at most once |
| PostCallLatch.UnlatchedRequestsTwice | components/Agent.tsx:86-116 | as written: ending an interview and then receiving a final transcript requests feedback twice |

## Left out

- components/AuthForm.tsx, app/api/auth/session/route.ts and app/(root)/layout.tsx are not part of this model. They are authentication, session cookies and layout, built on Firebase and HTTP.
- Provider subscription and unsubscription (components/Agent.tsx:69-83), audio and transport: events are inputs, and start/stop are emitted commands.
- The awaiting and rejection of `vapi.start`, and exceptions from `createFeedback`: the feedback result is an input. A rejected start leaves the status CONNECTING, exactly as the source does.
- `console.log` on errors, speech events and failed feedback saves: logging has no effect on state.
- `router.push` itself: routes are returned as strings.
- JSX rendering, CSS classes, avatars: only the rule for which button is shown is modelled (`Agent.Offered`).
- React scheduling: each handler runs to completion, then the effect runs at most once. Batching across several events and StrictMode double effects are not modelled.
- AgentTrace.RunStatus: states the status only for sessions without button presses. The effect of each press is stated by Agent.HandleCall and Agent.HandleDisconnect.
- Questions.FormatParseRoundTrip: holds only for questions without line breaks. A question holding a line break cannot be read back (Questions.FormatIsLossy). Absent questions and an empty list give the same block, so the parser reads both as an empty list.
- Agent.StartCommandCarriesQuestions: holds only when no prepared question contains a line break. A question holding one cannot be recovered from the block (Questions.FormatIsLossy).
- Questions.Join: its contract states only the zero-part and one-part cases. The general case, with `sep` between neighbouring parts, is stated by Questions.JoinSnoc, and by Questions.FormatAppend for the question block.
- Questions.FormatQuestions: its contract states only the empty and single-question cases. The general case is stated by Questions.FormatAppend and Questions.FormatLines.

=== FILE: agent.dfy ===
/**
 The call-session controller (`Agent`): the call status, the saved transcript, the
 speaking flag and the newest message's text; the provider's event handlers, the
 two buttons with the start/stop commands they issue, and the post-call effect that
 either goes home or asks for feedback.
 */
module Agent {
  import opened Options
  import opened Questions
  import opened Transcript
  import opened Feedback

  datatype CallStatus = Inactive | Connecting | Active | Finished

  /** The props the controller reads; `questions` are the interview's prepared questions. */
  datatype Props = Props(
    userName: string,
    userId: Option<string>,
    interviewId: Option<string>,
    feedbackId: Option<string>,
    interviewType: string,
    questions: Option<seq<string>>)

  /** The component state: `callStatus`, `messages`, `isSpeaking`, `lastMessage`. */
  datatype State = State(
    status: CallStatus,
    messages: seq<SavedMessage>,
    isSpeaking: bool,
    lastMessage: string)

  const Initial: State := State(Inactive, [], false, "")

  /** The events the controller subscribes to. */
  datatype Event =
    | CallStart
    | CallEnd
    | Message(message: ProviderMessage)
    | SpeechStart
    | SpeechEnd
    | Error(details: string)

  predicate AppendsEntry(e: Event) {
    e.Message? && IsFinalTranscript(e.message)
  }

  /**
   The provider event handlers. Call-start and call-end set the status whatever it
   was; only a final transcript touches the history; speech events only set the
   speaking flag; errors are only logged.
   */
  function OnEvent(s: State, e: Event): (r: State)
    ensures r.lastMessage == s.lastMessage
    ensures e.CallStart? ==> r.status == Active
    ensures e.CallEnd? ==> r.status == Finished
    ensures !e.CallStart? && !e.CallEnd? ==> r.status == s.status
    ensures s.messages <= r.messages
    ensures |r.messages| == |s.messages| + (if AppendsEntry(e) then 1 else 0)
    ensures AppendsEntry(e) ==> r.messages[|s.messages|] == SavedMessage(e.message.role, e.message.transcript)
    ensures e.SpeechStart? ==> r.isSpeaking
    ensures e.SpeechEnd? ==> !r.isSpeaking
    ensures !e.SpeechStart? && !e.SpeechEnd? ==> r.isSpeaking == s.isSpeaking
  {
    match e
    case CallStart => s.(status := Active)
    case CallEnd => s.(status := Finished)
    case Message(m) => s.(messages := OnMessage(s.messages, m))
    case SpeechStart => s.(isSpeaking := true)
    case SpeechEnd => s.(isSpeaking := false)
    case Error(_) => s
  }

  /** The two assistants a call can be started with: the generation workflow and the interviewer. */
  datatype Target = Workflow | Interviewer

  /** Commands to the call provider. */
  datatype Command =
    | Start(target: Target, variableValues: map<string, Option<string>>)
    | Stop

  const GenerateType: string := "generate"

  /**
   The start command of `handleCall`: a `generate` session starts the workflow with
   only the user's name and id; any other session starts the interviewer with only
   the formatted question block.
   */
  function StartCommand(p: Props): (c: Command)
    ensures c.Start?
    ensures c.target == Workflow <==> p.interviewType == GenerateType
    ensures p.interviewType == GenerateType ==>
              && c.variableValues.Keys == {"username", "userid"}
              && c.variableValues["username"] == Some(p.userName)
              && c.variableValues["userid"] == p.userId
    ensures p.interviewType != GenerateType ==>
              && c.variableValues.Keys == {"questions"}
              && c.variableValues["questions"] == Some(FormatQuestions(p.questions))
  {
    if p.interviewType == GenerateType then
      Start(Workflow, map["username" := Some(p.userName), "userid" := p.userId])
    else
      Start(Interviewer, map["questions" := Some(FormatQuestions(p.questions))])
  }

  /**
   An interviewer call carries every prepared question, recoverable from its question
   block; absent questions read back as none.
   */
  lemma StartCommandCarriesQuestions(p: Props)
    requires p.interviewType != GenerateType
    requires p.questions.Some? ==> NoLineBreaks(p.questions.value)
    ensures ParseQuestions(StartCommand(p).variableValues["questions"].value)
            == match p.questions case None => [] case Some(qs) => qs
  {
    if p.questions.Some? {
      FormatParseRoundTrip(p.questions.value);
    }
  }

  /** A state change together with the commands it issues. */
  datatype Reaction = Reaction(state: State, commands: seq<Command>)

  /**
   `handleCall`, offered whenever the call is not active: the status becomes
   connecting and the start command is issued; nothing else in the state changes.
   A failing start leaves the status connecting.
   */
  function HandleCall(p: Props, s: State): (r: Reaction)
    requires s.status != Active
    ensures r.state.status == Connecting
    ensures r.state.(status := s.status) == s
    ensures r.commands == [StartCommand(p)]
  {
    Reaction(s.(status := Connecting), [StartCommand(p)])
  }

  /**
   `handleDisconnect`, offered only while the call is active: the status becomes
   finished and the stop command is issued; nothing else in the state changes.
   */
  function HandleDisconnect(s: State): (r: Reaction)
    requires s.status == Active
    ensures r.state.status == Finished
    ensures r.state.(status := s.status) == s
    ensures r.commands == [Stop]
  {
    Reaction(s.(status := Finished), [Stop])
  }

  /** What one run of the post-call effect does. */
  datatype PostCallAction =
    | Idle
    | GoHome
    | RequestFeedback(request: FeedbackRequest)

  /**
   The post-call branch: nothing before the call has finished; then a `generate`
   session goes home and any other session asks for feedback on the whole history.
   */
  function PostCall(p: Props, status: CallStatus, messages: seq<SavedMessage>): (a: PostCallAction)
    ensures a != Idle <==> status == Finished
    ensures a.GoHome? <==> status == Finished && p.interviewType == GenerateType
    ensures a.RequestFeedback? ==>
              a.request == FeedbackRequest(p.interviewId, p.userId, messages, p.feedbackId)
  {
    if status != Finished then Idle
    else if p.interviewType == GenerateType then GoHome
    else RequestFeedback(FeedbackRequest(p.interviewId, p.userId, messages, p.feedbackId))
  }

  /** Where an action leads once the feedback result (if one was asked for) is known. */
  function Destination(action: PostCallAction, result: FeedbackResult): (route: Option<string>)
    ensures action.Idle? <==> route.None?
    ensures action.GoHome? ==> route == Some(HomeRoute)
    ensures action.RequestFeedback? ==>
              route == Some(OutcomeRoute(action.request.interviewId, result))
  {
    match action
    case Idle => None
    case GoHome => Some(HomeRoute)
    case RequestFeedback(req) => Some(OutcomeRoute(req.interviewId, result))
  }

  /**
   The post-call effect re-runs when one of its dependencies changed: `messages` is
   a new array after every append, and setting `callStatus` to its current value
   leaves that dependency unchanged. The other dependencies are the props and the
   router, which stay fixed for one mounted controller.
   */
  predicate EffectReruns(before: State, after: State) {
    before.messages != after.messages || before.status != after.status
  }

  /** `lastMessage` is the content of the newest entry whenever there is one. */
  predicate LastMessageCurrent(s: State) {
    |s.messages| > 0 ==> s.lastMessage == s.messages[|s.messages| - 1].content
  }

  /** One update of the controller: the new state, the commands issued and the effect's action. */
  datatype Tick = Tick(state: State, commands: seq<Command>, action: PostCallAction)

  /** Runs the post-call effect, if it re-runs, after a handler turned `before` into `after`. */
  function Settle(p: Props, before: State, after: State, commands: seq<Command>): (t: Tick)
    requires after.lastMessage == before.lastMessage
    ensures t.state.(lastMessage := after.lastMessage) == after
    ensures t.commands == commands
    ensures LastMessageCurrent(before) ==> LastMessageCurrent(t.state)
    ensures t.action != Idle ==> after.status == Finished && EffectReruns(before, after)
    ensures EffectReruns(before, after) ==> t.action == PostCall(p, after.status, after.messages)
    ensures !EffectReruns(before, after) ==> t.action == Idle
    ensures !EffectReruns(before, after) || |after.messages| == 0 ==> t.state == after
    ensures EffectReruns(before, after) && |after.messages| > 0 ==>
              t.state.lastMessage == after.messages[|after.messages| - 1].content
    ensures t.action.RequestFeedback? ==>
              && p.interviewType != GenerateType
              && t.action.request == FeedbackRequest(p.interviewId, p.userId, after.messages, p.feedbackId)
  {
    if EffectReruns(before, after) then
      var refreshed := after.(lastMessage := RefreshLastMessage(after.messages, after.lastMessage));
      Tick(refreshed, commands, PostCall(p, after.status, after.messages))
    else Tick(after, commands, Idle)
  }

  /** The controller's inputs: a provider event or a press of the call or end button. */
  datatype Input = Provider(event: Event) | PressCall | PressDisconnect

  /** The call button is shown whenever the call is not active, the end button only while it is. */
  predicate Offered(s: State, i: Input) {
    match i
    case Provider(_) => true
    case PressCall => s.status != Active
    case PressDisconnect => s.status == Active
  }

  /** One input handled to completion. A press on a button that is not shown cannot happen and changes nothing. */
  function Apply(p: Props, s: State, i: Input): (t: Tick)
    ensures !Offered(s, i) ==> t == Tick(s, [], Idle)
    ensures LastMessageCurrent(s) ==> LastMessageCurrent(t.state)
    ensures |t.state.messages| == 0 ==> t.state.lastMessage == s.lastMessage
    ensures t.action != Idle ==> t.state.status == Finished
    ensures t.action.RequestFeedback? ==>
              && p.interviewType != GenerateType
              && t.action.request == FeedbackRequest(p.interviewId, p.userId, t.state.messages, p.feedbackId)
  {
    match i
    case Provider(e) => Settle(p, s, OnEvent(s, e), [])
    case PressCall =>
      if s.status != Active then
        var r := HandleCall(p, s);
        Settle(p, s, r.state, r.commands)
      else Tick(s, [], Idle)
    case PressDisconnect =>
      if s.status == Active then
        var r := HandleDisconnect(s);
        Settle(p, s, r.state, r.commands)
      else Tick(s, [], Idle)
  }

  /** Ending an active interview asks for feedback on the history as it stands, even an empty one. */
  lemma DisconnectRequestsFeedback(p: Props, s: State)
    requires s.status == Active && p.interviewType != GenerateType
    ensures Apply(p, s, PressDisconnect).commands == [Stop]
    ensures Apply(p, s, PressDisconnect).action
            == RequestFeedback(FeedbackRequest(p.interviewId, p.userId, s.messages, p.feedbackId))
  {
  }

  /**
   A call-end from the provider during a call runs the post-call workflow: home for a
   `generate` session, a feedback request on the whole history otherwise.
   */
  lemma CallEndRunsPostCall(p: Props, s: State)
    requires s.status != Finished
    ensures Apply(p, s, Provider(CallEnd)).action == PostCall(p, Finished, s.messages)
    ensures p.interviewType == GenerateType ==> Apply(p, s, Provider(CallEnd)).action == GoHome
    ensures p.interviewType != GenerateType ==>
              Apply(p, s, Provider(CallEnd)).action
              == RequestFeedback(FeedbackRequest(p.interviewId, p.userId, s.messages, p.feedbackId))
  {
  }

  /**
   A call-end arriving after the user already ended the call changes nothing and
   does not start the post-call workflow again.
   */
  lemma LateCallEndIsQuiet(p: Props, s: State)
    requires s.status == Finished
    ensures Apply(p, s, Provider(CallEnd)) == Tick(s, [], Idle)
  {
  }

  /**
   There is no one-shot guard: a final transcript arriving after the call finished
   re-runs the effect, and an interview session asks for feedback again.
   */
  lemma LateTranscriptRequestsAgain(p: Props, s: State, m: ProviderMessage)
    requires s.status == Finished && p.interviewType != GenerateType && IsFinalTranscript(m)
    ensures Apply(p, s, Provider(Message(m))).action
            == RequestFeedback(FeedbackRequest(p.interviewId, p.userId, s.messages + [Saved(m)], p.feedbackId))
  {
  }
}

=== FILE: feedback.dfy ===
/**
 The feedback step after a call: the request handed to the remote feedback
 generator, its result, and the route the controller navigates to from that result.
 */
module Feedback {
  import opened Options
  import opened Transcript

  /** The argument of `createFeedback`. */
  datatype FeedbackRequest = FeedbackRequest(
    interviewId: Option<string>,
    userId: Option<string>,
    transcript: seq<SavedMessage>,
    feedbackId: Option<string>)

  /** What `createFeedback` resolves to: a success flag and possibly the id of the stored feedback. */
  datatype FeedbackResult = FeedbackResult(success: bool, feedbackId: Option<string>)

  const HomeRoute: string := "/"
  const InterviewPrefix: string := "/interview/"
  const FeedbackSuffix: string := "/feedback"

  /** JavaScript truthiness of an optional string: `undefined` and "" are both falsy. */
  predicate Truthy(id: Option<string>) {
    id.Some? && id.value != ""
  }

  /** How a template literal prints an optional string: `undefined` prints as "undefined". */
  function Interpolate(o: Option<string>): string {
    match o
    case None => "undefined"
    case Some(v) => v
  }

  /** The feedback page of an interview: the interview prefix, the printed id, then the feedback suffix. */
  function FeedbackRoute(interviewId: Option<string>): string {
    InterviewPrefix + Interpolate(interviewId) + FeedbackSuffix
  }

  /** Partner of `FeedbackRoute`: the interview a feedback route is about, or None for any other route. */
  function InterviewOfRoute(route: string): (id: Option<string>)
    ensures id.Some? ==> route == InterviewPrefix + id.value + FeedbackSuffix
  {
    if |InterviewPrefix| + |FeedbackSuffix| <= |route|
       && route[..|InterviewPrefix|] == InterviewPrefix
       && route[|route| - |FeedbackSuffix|..] == FeedbackSuffix
    then
      var id := route[|InterviewPrefix|..|route| - |FeedbackSuffix|];
      assert route == route[..|InterviewPrefix|] + id + route[|route| - |FeedbackSuffix|..];
      Some(id)
    else None
  }

  lemma FeedbackRouteRoundTrip(id: string)
    ensures InterviewOfRoute(InterviewPrefix + id + FeedbackSuffix) == Some(id)
  {
    var route := InterviewPrefix + id + FeedbackSuffix;
    assert route[..|InterviewPrefix|] == InterviewPrefix;
    assert route[|route| - |FeedbackSuffix|..] == FeedbackSuffix;
    assert route[|InterviewPrefix|..|route| - |FeedbackSuffix|] == id;
  }

  /**
   The outcome branch of `handleGenerateFeedback`: success together with a truthy
   feedback id leads to the interview's feedback page, anything else to the home page.
   */
  function OutcomeRoute(interviewId: Option<string>, result: FeedbackResult): (route: string)
    ensures result.success && Truthy(result.feedbackId) ==>
              InterviewOfRoute(route) == Some(Interpolate(interviewId))
    ensures !(result.success && Truthy(result.feedbackId)) ==> route == HomeRoute
    ensures InterviewOfRoute(route).Some? <==> result.success && Truthy(result.feedbackId)
  {
    if result.success && Truthy(result.feedbackId) then
      FeedbackRouteRoundTrip(Interpolate(interviewId));
      FeedbackRoute(interviewId)
    else HomeRoute
  }

  /** A failed save, or a success without an id (including the empty id), goes home. */
  lemma FailedOutcomesGoHome(interviewId: Option<string>)
    ensures OutcomeRoute(interviewId, FeedbackResult(false, Some("fb1"))) == HomeRoute
    ensures OutcomeRoute(interviewId, FeedbackResult(true, None)) == HomeRoute
    ensures OutcomeRoute(interviewId, FeedbackResult(true, Some(""))) == HomeRoute
  {
  }

  lemma SuccessfulOutcomeShowsFeedback()
    ensures OutcomeRoute(Some("iv1"), FeedbackResult(true, Some("fb1"))) == "/interview/iv1/feedback"
  {
  }
}

=== FILE: latch.dfy ===
/**
 An added design choice, not present in the controller: a one-shot latch on the
 post-call workflow. The controller as written re-runs its effect whenever the
 history grows after the call finished, so one session can ask for feedback more
 than once; the latched session passes on only the first post-call action.
 A session here is the lifetime of one mounted controller: the latch is never
 re-armed, so a second call started with the same controller gets no post-call
 workflow.
 */
module PostCallLatch {
  import opened Transcript
  import opened Agent
  import opened AgentTrace

  /** Number of effect runs that did something. */
  function CountActions(actions: seq<PostCallAction>): nat
    decreases |actions|
  {
    if |actions| == 0 then 0
    else CountActions(actions[..|actions| - 1]) + (if actions[|actions| - 1] != Idle then 1 else 0)
  }

  /**
   A latched session, over the lifetime of one mounted controller: the trace with
   every post-call action after the first one suppressed (a later `PressCall` does
   not re-arm the latch), and whether the latch is set.
   */
  datatype LatchedTrace = LatchedTrace(trace: Trace, fired: bool)

  function LatchedRun(p: Props, s: State, inputs: seq<Input>): (lt: LatchedTrace)
    ensures |lt.trace.actions| == |inputs|
    decreases |inputs|
  {
    if |inputs| == 0 then LatchedTrace(Trace(s, [], []), false)
    else
      var prev := LatchedRun(p, s, inputs[..|inputs| - 1]);
      var tick := Apply(p, prev.trace.state, inputs[|inputs| - 1]);
      var action := if prev.fired then Idle else tick.action;
      LatchedTrace(Trace(tick.state, prev.trace.commands + tick.commands, prev.trace.actions + [action]),
                   prev.fired || tick.action != Idle)
  }

  lemma {:induction false} LatchedKeepsTrace(p: Props, s: State, inputs: seq<Input>)
    ensures LatchedRun(p, s, inputs).trace.state == Run(p, s, inputs).state
    ensures LatchedRun(p, s, inputs).trace.commands == Run(p, s, inputs).commands
    decreases |inputs|
  {
    if |inputs| > 0 {
      LatchedKeepsTrace(p, s, inputs[..|inputs| - 1]);
    }
  }

  /** Some effect run in the session did something. */
  predicate Acts(actions: seq<PostCallAction>) {
    exists k :: 0 <= k < |actions| && actions[k] != Idle
  }

  lemma ActsSnoc(actions: seq<PostCallAction>, a: PostCallAction)
    ensures Acts(actions + [a]) <==> Acts(actions) || a != Idle
  {
    if Acts(actions) {
      var k :| 0 <= k < |actions| && actions[k] != Idle;
      assert (actions + [a])[k] != Idle;
    }
    if a != Idle {
      assert (actions + [a])[|actions|] != Idle;
    }
    if Acts(actions + [a]) {
      var k :| 0 <= k < |actions| + 1 && (actions + [a])[k] != Idle;
      if k < |actions| {
        assert actions[k] != Idle;
      }
    }
  }

  lemma {:induction false} LatchedFiresWhenSourceActs(p: Props, s: State, inputs: seq<Input>)
    ensures LatchedRun(p, s, inputs).fired <==> Acts(Run(p, s, inputs).actions)
    decreases |inputs|
  {
    if |inputs| > 0 {
      var n := |inputs| - 1;
      LatchedFiresWhenSourceActs(p, s, inputs[..n]);
      LatchedKeepsTrace(p, s, inputs[..n]);
      var tp := Run(p, s, inputs[..n]);
      var tick := Apply(p, tp.state, inputs[n]);
      ActsSnoc(tp.actions, tick.action);
    }
  }

  lemma {:induction false} LatchedCount(p: Props, s: State, inputs: seq<Input>)
    ensures CountActions(LatchedRun(p, s, inputs).trace.actions) == (if LatchedRun(p, s, inputs).fired then 1 else 0)
    decreases |inputs|
  {
    if |inputs| > 0 {
      var n := |inputs| - 1;
      LatchedCount(p, s, inputs[..n]);
      var lt, lp := LatchedRun(p, s, inputs), LatchedRun(p, s, inputs[..n]);
      assert lt.trace.actions[..n] == lp.trace.actions;
    }
  }

  lemma {:induction false} LatchedPassesFirst(p: Props, s: State, inputs: seq<Input>)
    ensures var lt := LatchedRun(p, s, inputs);
            var t := Run(p, s, inputs);
            && (forall k :: 0 <= k < |inputs| && lt.trace.actions[k] != Idle ==> lt.trace.actions[k] == t.actions[k])
            && (forall k, j :: 0 <= j < k < |inputs| && lt.trace.actions[k] != Idle ==> t.actions[j] == Idle)
    decreases |inputs|
  {
    if |inputs| > 0 {
      var n := |inputs| - 1;
      LatchedPassesFirst(p, s, inputs[..n]);
      LatchedKeepsTrace(p, s, inputs[..n]);
      LatchedFiresWhenSourceActs(p, s, inputs[..n]);
      var lt, t := LatchedRun(p, s, inputs), Run(p, s, inputs);
      var lp, tp := LatchedRun(p, s, inputs[..n]), Run(p, s, inputs[..n]);
      var tick := Apply(p, tp.state, inputs[n]);
      assert t.actions == tp.actions + [tick.action];
      assert lt.trace.actions == lp.trace.actions + [if lp.fired then Idle else tick.action];
      forall k | 0 <= k < |inputs| && lt.trace.actions[k] != Idle
        ensures lt.trace.actions[k] == t.actions[k]
        ensures forall j :: 0 <= j < k ==> t.actions[j] == Idle
      {
        if k < n {
          assert lt.trace.actions[k] == lp.trace.actions[k];
          assert forall j :: 0 <= j < k ==> t.actions[j] == tp.actions[j];
        } else {
          assert !lp.fired;
          assert forall j :: 0 <= j < n ==> t.actions[j] == tp.actions[j];
        }
      }
    }
  }

  /**
   The latch changes no state and no command; it passes on at most one post-call
   action, the first one the controller as written produces, at the same point, and
   it fires exactly when the controller as written does anything after a call.
   */
  lemma LatchedRunAgrees(p: Props, s: State, inputs: seq<Input>)
    ensures var lt := LatchedRun(p, s, inputs);
            var t := Run(p, s, inputs);
            && lt.trace.state == t.state
            && lt.trace.commands == t.commands
            && CountActions(lt.trace.actions) == (if lt.fired then 1 else 0)
            && (forall k :: 0 <= k < |inputs| && lt.trace.actions[k] != Idle ==> lt.trace.actions[k] == t.actions[k])
            && (forall k, j :: 0 <= j < k < |inputs| && lt.trace.actions[k] != Idle ==> t.actions[j] == Idle)
            && (lt.fired <==> exists k :: 0 <= k < |inputs| && t.actions[k] != Idle)
  {
    LatchedKeepsTrace(p, s, inputs);
    LatchedFiresWhenSourceActs(p, s, inputs);
    LatchedCount(p, s, inputs);
    LatchedPassesFirst(p, s, inputs);
  }

  /** The latched session performs the post-call workflow at most once. */
  lemma LatchedAtMostOnce(p: Props, s: State, inputs: seq<Input>)
    ensures CountActions(LatchedRun(p, s, inputs).trace.actions) <= 1
  {
    LatchedRunAgrees(p, s, inputs);
  }

  /**
   The controller as written: ending an interview and then receiving one more
   final transcript asks for feedback twice, the second time with the longer history.
   */
  lemma UnlatchedRequestsTwice(p: Props, s: State, m: ProviderMessage)
    requires s.status == Active && p.interviewType != GenerateType && IsFinalTranscript(m)
    ensures var t := Run(p, s, [PressDisconnect, Provider(Message(m))]);
            && t.actions[0].RequestFeedback? && t.actions[0].request.transcript == s.messages
            && t.actions[1].RequestFeedback? && t.actions[1].request.transcript == s.messages + [Saved(m)]
            && CountActions(t.actions) == 2
  {
    var inputs := [PressDisconnect, Provider(Message(m))];
    assert inputs[..1] == [PressDisconnect];
    assert inputs[..1][..0] == [];
    var first := Run(p, s, inputs[..1]);
    DisconnectRequestsFeedback(p, s);
    assert Run(p, s, inputs[..1][..0]) == Trace(s, [], []);
    assert first.actions == [Apply(p, s, PressDisconnect).action];
    assert first.state.status == Finished && first.state.messages == s.messages;
    LateTranscriptRequestsAgain(p, first.state, m);
    var t := Run(p, s, inputs);
    assert t.actions == first.actions + [Apply(p, first.state, Provider(Message(m))).action];
    assert t.actions[..1] == first.actions;
    assert first.actions[..0] == [];
    assert CountActions(first.actions) == 1;
  }
}

=== FILE: options.dfy ===
/** Optional values: the model's rendering of TypeScript's optional (possibly `undefined`) props. */
module Options {

  datatype Option<+T> = None | Some(value: T)
}

=== FILE: questions.dfy ===
/**
 The question block `handleCall` sends to the interviewer assistant: every prepared
 question gets a "- " bullet and the lines are joined with "\n". The block is the
 whole question payload, so the module also gives its partner, a parser that
 splits the block back into lines and strips the bullets.
 */
module Questions {
  import opened Options

  /** The marker put in front of every question. */
  const Bullet: string := "- "

  /** The separator the bulleted questions are joined with. */
  const LineBreak: string := "\n"

  /** JavaScript's `Array.prototype.join`: the parts in order with `sep` between neighbours; no parts give "". */
  function Join(parts: seq<string>, sep: string): (r: string)
    ensures |parts| == 0 ==> r == ""
    ensures |parts| == 1 ==> r == parts[0]
    decreases |parts|
  {
    if |parts| == 0 then ""
    else if |parts| == 1 then parts[0]
    else parts[0] + sep + Join(parts[1..], sep)
  }

  /** Every question with the bullet in front of it, in the given order. */
  function Bulleted(qs: seq<string>): (lines: seq<string>)
    ensures |lines| == |qs|
    ensures forall i :: 0 <= i < |qs| ==> lines[i] == Bullet + qs[i]
  {
    seq(|qs|, i requires 0 <= i < |qs| => Bullet + qs[i])
  }

  /**
   The question block of `handleCall`: "" when the questions are absent, otherwise
   the bulleted questions joined with line breaks (so an empty list also gives "").
   */
  function FormatQuestions(questions: Option<seq<string>>): (block: string)
    ensures questions == None || questions == Some([]) ==> block == ""
    ensures questions.Some? && |questions.value| == 1 ==> block == Bullet + questions.value[0]
  {
    match questions
    case None => ""
    case Some(qs) => Join(Bulleted(qs), LineBreak)
  }

  /** Splits `s` at every line break; a string without one is a single line. */
  function SplitLines(s: string): (lines: seq<string>)
    ensures |lines| >= 1
    ensures forall i :: 0 <= i < |lines| ==> '\n' !in lines[i]
    decreases |s|
  {
    if |s| == 0 then [""]
    else
      var rest := SplitLines(s[1..]);
      if s[0] == '\n' then [""] + rest
      else [[s[0]] + rest[0]] + rest[1..]
  }

  /** Removes a leading bullet when there is one. */
  function StripBullet(line: string): (q: string)
    ensures Bullet <= line ==> Bullet + q == line
    ensures !(Bullet <= line) ==> q == line
  {
    if Bullet <= line then line[|Bullet|..] else line
  }

  /** Reads a question block back into the questions, one per line; the empty block holds none. */
  function ParseQuestions(block: string): (qs: seq<string>)
    ensures block == "" ==> qs == []
    ensures block != "" ==> |qs| == |SplitLines(block)|
  {
    if block == "" then []
    else
      var lines := SplitLines(block);
      seq(|lines|, i requires 0 <= i < |lines| => StripBullet(lines[i]))
  }

  predicate NoLineBreaks(parts: seq<string>) {
    forall i :: 0 <= i < |parts| ==> '\n' !in parts[i]
  }

  lemma {:induction false} SplitSingleLine(a: string)
    requires '\n' !in a
    ensures SplitLines(a) == [a]
    decreases |a|
  {
    if |a| > 0 {
      SplitSingleLine(a[1..]);
      assert [a[0]] + a[1..] == a;
    }
  }

  lemma {:induction false} SplitAfterLine(a: string, b: string)
    requires '\n' !in a
    ensures SplitLines(a + LineBreak + b) == [a] + SplitLines(b)
    decreases |a|
  {
    var s := a + LineBreak + b;
    if |a| == 0 {
      assert s[0] == '\n' && s[1..] == b;
    } else {
      assert s[0] == a[0];
      assert s[1..] == a[1..] + LineBreak + b;
      SplitAfterLine(a[1..], b);
      assert [a[0]] + a[1..] == a;
    }
  }

  /** Splitting a join of line-free parts gives the parts back. */
  lemma {:induction false} SplitJoin(parts: seq<string>)
    requires |parts| > 0 && NoLineBreaks(parts)
    ensures SplitLines(Join(parts, LineBreak)) == parts
    decreases |parts|
  {
    if |parts| == 1 {
      SplitSingleLine(parts[0]);
    } else {
      SplitJoin(parts[1..]);
      SplitAfterLine(parts[0], Join(parts[1..], LineBreak));
      assert [parts[0]] + parts[1..] == parts;
    }
  }

  lemma JoinExtendFirst(c: char, parts: seq<string>, sep: string)
    requires |parts| > 0
    ensures Join([[c] + parts[0]] + parts[1..], sep) == [c] + Join(parts, sep)
  {
    var extended := [[c] + parts[0]] + parts[1..];
    if |parts| > 1 {
      assert extended[1..] == parts[1..];
      assert Join(extended, sep) == [c] + parts[0] + sep + Join(parts[1..], sep);
    }
  }

  /** Joining the lines of any string with line breaks gives the string back. */
  lemma {:induction false} JoinSplit(s: string)
    ensures Join(SplitLines(s), LineBreak) == s
    decreases |s|
  {
    if |s| > 0 {
      var rest := SplitLines(s[1..]);
      JoinSplit(s[1..]);
      if s[0] == '\n' {
        assert ([""] + rest)[1..] == rest;
        assert Join([""] + rest, LineBreak) == "" + LineBreak + Join(rest, LineBreak);
      } else {
        JoinExtendFirst(s[0], rest, LineBreak);
      }
      assert [s[0]] + s[1..] == s;
    }
  }

  lemma JoinStartsWithFirst(parts: seq<string>, sep: string)
    requires |parts| > 0
    ensures parts[0] <= Join(parts, sep)
  {
  }

  lemma {:induction false} JoinSnoc(parts: seq<string>, x: string, sep: string)
    requires |parts| > 0
    ensures Join(parts + [x], sep) == Join(parts, sep) + sep + x
    decreases |parts|
  {
    if |parts| > 1 {
      assert (parts + [x])[1..] == parts[1..] + [x];
      JoinSnoc(parts[1..], x, sep);
    }
  }

  /** Adding a question appends one line break and one bulleted line; nothing before it changes. */
  lemma FormatAppend(qs: seq<string>, q: string)
    requires |qs| > 0
    ensures FormatQuestions(Some(qs + [q])) == FormatQuestions(Some(qs)) + LineBreak + Bullet + q
  {
    assert Bulleted(qs + [q]) == Bulleted(qs) + [Bullet + q];
    JoinSnoc(Bulleted(qs), Bullet + q, LineBreak);
  }

  /** For questions without line breaks, the block has exactly one bulleted line per question, in order. */
  lemma FormatLines(qs: seq<string>)
    requires |qs| > 0 && NoLineBreaks(qs)
    ensures SplitLines(FormatQuestions(Some(qs))) == Bulleted(qs)
  {
    var lines := Bulleted(qs);
    forall i | 0 <= i < |lines|
      ensures '\n' !in lines[i]
    {
      assert lines[i] == Bullet + qs[i];
    }
    SplitJoin(lines);
  }

  /** The parser recovers the questions from their block. */
  lemma FormatParseRoundTrip(qs: seq<string>)
    requires NoLineBreaks(qs)
    ensures ParseQuestions(FormatQuestions(Some(qs))) == qs
  {
    if |qs| == 0 {
      return;
    }
    FormatLines(qs);
    assert FormatQuestions(Some(qs)) != "" by {
      assert Bullet + qs[0] == Bulleted(qs)[0];
      JoinStartsWithFirst(Bulleted(qs), LineBreak);
    }
    var parsed := ParseQuestions(FormatQuestions(Some(qs)));
    forall i | 0 <= i < |qs|
      ensures parsed[i] == qs[i]
    {
      assert Bulleted(qs)[i] == Bullet + qs[i];
      assert (Bullet + qs[i])[|Bullet|..] == qs[i];
    }
  }

  /** The scenario of two prepared questions. */
  lemma FormatTwoQuestions()
    ensures FormatQuestions(Some(["Tell me about yourself", "Why this role?"]))
            == "- Tell me about yourself\n- Why this role?"
  {
    var lines := Bulleted(["Tell me about yourself", "Why this role?"]);
    assert lines[0] == "- Tell me about yourself";
    assert lines[1] == "- Why this role?";
    assert lines[1..] == ["- Why this role?"];
    assert Join(lines, LineBreak) == lines[0] + LineBreak + Join(lines[1..], LineBreak);
  }

  /**
   The block is lossy: absent questions and an empty list give the same block, and
   a question holding a line break and a bullet reads as two questions.
   */
  lemma FormatIsLossy()
    ensures FormatQuestions(None) == FormatQuestions(Some([]))
    ensures FormatQuestions(Some(["a\n- b"])) == FormatQuestions(Some(["a", "b"]))
  {
  }
}

=== FILE: trace.dfy ===
/**
 Whole sessions: the controller fed a sequence of inputs, and what the state and
 the effect's actions are after it, against independent reference definitions.
 */
module AgentTrace {
  import opened Options
  import opened Transcript
  import opened Feedback
  import opened Agent

  /** The state after a sequence of inputs, every command issued, and one effect action per input. */
  datatype Trace = Trace(state: State, commands: seq<Command>, actions: seq<PostCallAction>)

  function Run(p: Props, s: State, inputs: seq<Input>): (t: Trace)
    ensures |t.actions| == |inputs|
    ensures s.messages <= t.state.messages
    ensures LastMessageCurrent(s) ==> LastMessageCurrent(t.state)
    decreases |inputs|
  {
    if |inputs| == 0 then Trace(s, [], [])
    else
      var prev := Run(p, s, inputs[..|inputs| - 1]);
      var tick := Apply(p, prev.state, inputs[|inputs| - 1]);
      Trace(tick.state, prev.commands + tick.commands, prev.actions + [tick.action])
  }

  /** Reference definition: the provider messages among the inputs, in order. */
  function MessagesOf(inputs: seq<Input>): seq<ProviderMessage>
    decreases |inputs|
  {
    if |inputs| == 0 then []
    else
      (if inputs[0].Provider? && inputs[0].event.Message? then [inputs[0].event.message] else [])
      + MessagesOf(inputs[1..])
  }

  lemma {:induction false} MessagesOfAppend(a: seq<Input>, b: seq<Input>)
    ensures MessagesOf(a + b) == MessagesOf(a) + MessagesOf(b)
    decreases |a|
  {
    if |a| > 0 {
      assert (a + b)[0] == a[0];
      assert (a + b)[1..] == a[1..] + b;
      MessagesOfAppend(a[1..], b);
    } else {
      assert a + b == b;
    }
  }

  /**
   The history after a session is the history before it followed by exactly the
   final transcripts among its inputs, in arrival order: partial transcripts, other
   messages, speech events, errors and button presses add nothing and remove nothing.
   */
  lemma {:induction false} RunMessages(p: Props, s: State, inputs: seq<Input>)
    ensures Run(p, s, inputs).state.messages == s.messages + FinalEntries(MessagesOf(inputs))
    decreases |inputs|
  {
    if |inputs| > 0 {
      var init, i := inputs[..|inputs| - 1], inputs[|inputs| - 1];
      RunMessages(p, s, init);
      assert init + [i] == inputs;
      MessagesOfAppend(init, [i]);
      FinalEntriesAppend(MessagesOf(init), MessagesOf([i]));
      assert MessagesOf([i]) == (if i.Provider? && i.event.Message? then [i.event.message] else []) + MessagesOf([]);
      if i.Provider? && i.event.Message? {
        assert FinalEntries([i.event.message])
               == (if IsFinalTranscript(i.event.message) then [Saved(i.event.message)] else []) + FinalEntries([]);
      }
    }
  }

  /** From a consistent start, `lastMessage` is the text of the newest final transcript once there is one. */
  lemma RunLastMessage(p: Props, s: State, inputs: seq<Input>)
    requires LastMessageCurrent(s)
    requires |FinalEntries(MessagesOf(inputs))| > 0
    ensures var finals := FinalEntries(MessagesOf(inputs));
            Run(p, s, inputs).state.lastMessage == finals[|finals| - 1].content
  {
    RunMessages(p, s, inputs);
  }

  /**
   Without a final transcript, `lastMessage` keeps its value: with an empty history
   nothing writes it, and otherwise it already holds the newest entry's text.
   */
  lemma {:induction false} RunLastMessageKept(p: Props, s: State, inputs: seq<Input>)
    requires LastMessageCurrent(s)
    requires |FinalEntries(MessagesOf(inputs))| == 0
    ensures Run(p, s, inputs).state.lastMessage == s.lastMessage
    decreases |inputs|
  {
    RunMessages(p, s, inputs);
    if |inputs| > 0 && |s.messages| == 0 {
      var init := inputs[..|inputs| - 1];
      assert init + [inputs[|inputs| - 1]] == inputs;
      MessagesOfAppend(init, [inputs[|inputs| - 1]]);
      FinalEntriesAppend(MessagesOf(init), MessagesOf([inputs[|inputs| - 1]]));
      RunLastMessageKept(p, s, init);
    }
  }

  /** Reference definition: the speaking flag named by the last speech event, if any. */
  function LastSpeech(inputs: seq<Input>): Option<bool>
    decreases |inputs|
  {
    if |inputs| == 0 then None
    else
      var i := inputs[|inputs| - 1];
      if i == Provider(SpeechStart) then Some(true)
      else if i == Provider(SpeechEnd) then Some(false)
      else LastSpeech(inputs[..|inputs| - 1])
  }

  /** `isSpeaking` follows the last speech event and nothing else. */
  lemma {:induction false} RunSpeaking(p: Props, s: State, inputs: seq<Input>)
    ensures Run(p, s, inputs).state.isSpeaking
            == match LastSpeech(inputs) case None => s.isSpeaking case Some(b) => b
    decreases |inputs|
  {
    if |inputs| > 0 {
      RunSpeaking(p, s, inputs[..|inputs| - 1]);
    }
  }

  /** Reference definition: the status named by the last call-start or call-end event, if any. */
  function LastCallEvent(inputs: seq<Input>): Option<CallStatus>
    decreases |inputs|
  {
    if |inputs| == 0 then None
    else
      var i := inputs[|inputs| - 1];
      if i == Provider(CallStart) then Some(Active)
      else if i == Provider(CallEnd) then Some(Finished)
      else LastCallEvent(inputs[..|inputs| - 1])
  }

  predicate ProviderOnly(inputs: seq<Input>) {
    forall k :: 0 <= k < |inputs| ==> inputs[k].Provider?
  }

  /**
   With no button pressed, the status is the one the last call-start or call-end
   set, from whatever it was before; every other event leaves it alone.
   */
  lemma {:induction false} RunStatus(p: Props, s: State, inputs: seq<Input>)
    requires ProviderOnly(inputs)
    ensures Run(p, s, inputs).state.status
            == match LastCallEvent(inputs) case None => s.status case Some(st) => st
    decreases |inputs|
  {
    if |inputs| > 0 {
      var init := inputs[..|inputs| - 1];
      assert forall k :: 0 <= k < |init| ==> init[k] == inputs[k];
      RunStatus(p, s, init);
    }
  }

  /** A `generate` session never asks for feedback, whatever was said. */
  lemma {:induction false} GenerateNeverRequestsFeedback(p: Props, s: State, inputs: seq<Input>)
    requires p.interviewType == GenerateType
    ensures forall k :: 0 <= k < |inputs| ==> !Run(p, s, inputs).actions[k].RequestFeedback?
    decreases |inputs|
  {
    if |inputs| > 0 {
      GenerateNeverRequestsFeedback(p, s, inputs[..|inputs| - 1]);
    }
  }

  /**
   The controller's navigation decision at every point of a session, given the
   feedback result: a `generate` session only ever goes home; any other session,
   once it acts, shows the interview's feedback page exactly when the result is a
   success with a truthy id, and goes home otherwise.
   */
  lemma {:induction false} SessionRoutes(p: Props, s: State, inputs: seq<Input>, result: FeedbackResult)
    ensures forall k :: 0 <= k < |inputs| ==>
              var a := Run(p, s, inputs).actions[k];
              && (p.interviewType == GenerateType ==> Destination(a, result) in {None, Some(HomeRoute)})
              && (a != Idle && p.interviewType == GenerateType ==> Destination(a, result) == Some(HomeRoute))
              && (a != Idle && p.interviewType != GenerateType ==>
                    && Destination(a, result).Some?
                    && (InterviewOfRoute(Destination(a, result).value) == Some(Interpolate(p.interviewId))
                        <==> result.success && Truthy(result.feedbackId))
                    && (!(result.success && Truthy(result.feedbackId)) ==> Destination(a, result) == Some(HomeRoute)))
    decreases |inputs|
  {
    if |inputs| > 0 {
      SessionRoutes(p, s, inputs[..|inputs| - 1], result);
    }
  }

  /** From the initial state, two partial transcripts and then the final one save exactly the final text. */
  lemma PartialsThenFinal(p: Props)
    ensures Run(p, Initial, [Provider(Message(Transcript(User, Partial, "I th"))),
                       Provider(Message(Transcript(User, Partial, "I think"))),
                       Provider(Message(Transcript(User, Final, "I think so")))]).state.messages
            == [SavedMessage(User, "I think so")]
  {
    var inputs := [Provider(Message(Transcript(User, Partial, "I th"))),
                   Provider(Message(Transcript(User, Partial, "I think"))),
                   Provider(Message(Transcript(User, Final, "I think so")))];
    RunMessages(p, Initial, inputs);
    assert MessagesOf(inputs) == [Transcript(User, Partial, "I th"), Transcript(User, Partial, "I think"),
                                  Transcript(User, Final, "I think so")] by {
      assert inputs[1..][1..] == [inputs[2]];
    }
    var ms := MessagesOf(inputs);
    var last := Transcript(User, Final, "I think so");
    assert ms[1..][1..] == [last];
    assert FinalEntries([last]) == [Saved(last)] + FinalEntries([]);
    assert FinalEntries(ms[1..]) == [] + FinalEntries([last]);
    assert FinalEntries(ms) == [] + FinalEntries(ms[1..]);
  }
}

=== FILE: transcript.dfy ===
/**
 The conversation history of one call: the provider's message events and the
 saved `{role, content}` entries built from the final transcripts among them.
 */
module Transcript {

  datatype Role = User | System | Assistant

  /** One saved turn of the conversation. */
  datatype SavedMessage = SavedMessage(role: Role, content: string)

  datatype TranscriptType = Partial | Final

  /** A provider `message` event: a transcript fragment or any other message type. */
  datatype ProviderMessage =
    | Transcript(role: Role, transcriptType: TranscriptType, transcript: string)
    | OtherMessage(messageType: string)

  predicate IsFinalTranscript(m: ProviderMessage) {
    m.Transcript? && m.transcriptType == Final
  }

  /** The entry a final transcript is saved as. */
  function Saved(m: ProviderMessage): (entry: SavedMessage)
    requires m.Transcript?
    ensures entry.role == m.role && entry.content == m.transcript
  {
    SavedMessage(m.role, m.transcript)
  }

  /**
   The `message` handler: a final transcript adds exactly one entry at the end and
   keeps every earlier entry in place; any other message leaves the history alone.
   */
  function OnMessage(messages: seq<SavedMessage>, m: ProviderMessage): (r: seq<SavedMessage>)
    ensures messages <= r
    ensures |r| == |messages| + (if IsFinalTranscript(m) then 1 else 0)
    ensures IsFinalTranscript(m) ==> r[|messages|] == SavedMessage(m.role, m.transcript)
  {
    if IsFinalTranscript(m) then messages + [Saved(m)] else messages
  }

  /**
   The `lastMessage` update: the content of the newest entry when there is one;
   with no entries the previous value stays.
   */
  function RefreshLastMessage(messages: seq<SavedMessage>, previous: string): (last: string)
    ensures |messages| > 0 ==> last == messages[|messages| - 1].content
    ensures |messages| == 0 ==> last == previous
  {
    if |messages| > 0 then messages[|messages| - 1].content else previous
  }

  /** Reference definition: the entries a stream of provider messages should leave, in arrival order. */
  function FinalEntries(ms: seq<ProviderMessage>): seq<SavedMessage>
    decreases |ms|
  {
    if |ms| == 0 then []
    else (if IsFinalTranscript(ms[0]) then [Saved(ms[0])] else []) + FinalEntries(ms[1..])
  }

  lemma {:induction false} FinalEntriesAppend(a: seq<ProviderMessage>, b: seq<ProviderMessage>)
    ensures FinalEntries(a + b) == FinalEntries(a) + FinalEntries(b)
    decreases |a|
  {
    if |a| > 0 {
      assert (a + b)[0] == a[0];
      assert (a + b)[1..] == a[1..] + b;
      FinalEntriesAppend(a[1..], b);
    } else {
      assert a + b == b;
    }
  }
}
